=== FILE: README.md ===
# Route tracking in caseloc, modelled in Dafny

caseloc is a small iOS application that records the user's path on a map. Its
core is a route tracker. The tracker receives position fixes from the location
service and keeps a waypoint only when it lies at least 100 m from the
previous one. It stores the route, fills in each waypoint's address once
reverse geocoding answers, and computes route statistics on demand: distance,
duration and average speed.

This project models that core as pure functions over immutable values:

- `SavedLocationModel` (`saved_location.dfy`): the coordinate, the map
  annotation (`Marker`) and the persisted waypoint (`SavedLocation`), with
  the conversions between them.
- `LocationManager` (`location_manager.dfy`): the service's own tracking
  flag, the filter every delivered batch of fixes passes through, the short
  and detailed address formatters, and the mapping from a geocoding outcome
  to address text.
- `RouteStatistics` (`route_statistics.dfy`): the statistics of a list of
  saved locations. This covers the stable sort by timestamp, the sum of the
  legs and the guarded division.
- `RouteStatsFormat` (`route_stats_format.dfy`): the numbers the statistics
  sheet shows, namely the hours/minutes split, the km-or-m choice and km/h.
- `MapViewModel` (`map_view_model.dfy`): the tracker state
  (`markers`, `savedLocations`, `lastLocation`, both tracking flags,
  `isRouteVisible`, the stored slot) and its events. It also defines the
  invariant every event preserves.
- `Optional`, `Constants` and `Text` are small helpers: Swift optionals,
  the application's literal values, and joining and splitting strings.

How platform services appear in the model:

- The geodesic distance `CLLocation.distance(from:)` is a parameter
  `dist: (Coord, Coord) -> real`. Only the non-negativity of the distance is
  ever assumed, in `RouteStatistics.NonNegative`.
- The clock is an explicit `now`, together with `timeLabel`, its
  hour:minute:second rendering. A save reads the clock once for every
  location it rebuilds. Those readings are the function `stamps`:
  `stamps(i)` is the time at which the `i`-th location was rebuilt.
- The `"Konum: %.6f, %.6f"` placeholder subtitle is a parameter
  `coordText: Coord -> string`.
- UserDefaults is the `Slot` value kept in the state. A slot is `Absent`,
  holds a decoded route (`Stored`), or holds data that does not decode
  (`Unreadable`).
- Annotations are reference objects in the application. A marker's `id`
  stands for that object's identity. The geocoding completion captures the
  object, and the identity is what it later writes through.
- Each asynchronous completion is a separate event (`MapViewModel.Event`),
  processed on the same state (`MapViewModel.Step`).

Behaviours of the code that the model keeps as written:

- Stale fixes and fixes with negative accuracy are dropped by the location
  service wrapper (`LocationManager.DidUpdateLocations`), not by the tracker.
- Each save rebuilds every saved location from its marker with
  `SavedLocation(marker:)`. That initialiser's timestamp defaults to the
  current time, read afresh for each element. Timestamps are therefore not
  kept from creation: every save restamps them all (`MapViewModel.SaveRoute`).
  Statistics taken right after a save measure the save loop itself. The
  duration is the time between the first and the last rebuilt element. The
  speed is the route's length over that time. It is therefore very large
  whenever the readings differ and the route has positive length
  (`MapViewModel.SavedRouteSpansTheSave`).
- A new waypoint's subtitle is not empty. It starts out as the coordinate
  placeholder text.
- The geocoding completion patches the first saved location at the same
  coordinate and then saves. The save rebuilds the saved locations from the
  markers, so the coordinate-matched patch is always overwritten
  (`MapViewModel.CompletionOverwritesPatch`). What lasts is the new subtitle
  of the captured annotation object. Matching is therefore by identity, and
  a completion after a reset changes no marker of the new route
  (`MapViewModel.LateCompletionAfterReset`). The patch itself does go to the
  earliest entry at a revisited coordinate
  (`MapViewModel.RevisitPatchesEarliest`), and it also replaces that entry's
  title with the captured one.
- `setTracking(enabled: true)` while tracking is already on is not a no-op.
  It starts the service again, and the flag's observer fires again.

## Model

| member | source | states |
|---|---|---|
| `SavedLocationModel.FromMarker` | caseloc/caseloc/Models/SavedLocationModel.swift:18-24 | the record copies the marker's coordinate and subtitle, takes its title or "Konum" when it has none, and carries the given timestamp |
| `SavedLocationModel.FromLocation` | caseloc/caseloc/Models/SavedLocationModel.swift:26-32 | the record keeps the location's coordinate and the given title, subtitle and timestamp |
| `SavedLocationModel.NewSavedLocation` | caseloc/caseloc/Models/SavedLocationModel.swift:26-32 | with the defaults taken, the subtitle is absent and the timestamp is the current time |
| `SavedLocationModel.ToMarker` | caseloc/caseloc/Models/SavedLocationModel.swift:34-40 | the new annotation has the record's coordinate, title and subtitle |
| `SavedLocationModel.ToLocation` | caseloc/caseloc/Models/SavedLocationModel.swift:42-44 | the location keeps the coordinate pair |
| `SavedLocationModel.MarkerRoundTrip` | caseloc/caseloc/Models/SavedLocationModel.swift:18-40 | converting a record to a marker and back, with its own timestamp, gives the same record |
| `SavedLocationModel.SavedLocationRoundTrip` | caseloc/caseloc/Models/SavedLocationModel.swift:18-40 | a titled marker converted to a record and back is the same marker, up to object identity |
| `SavedLocationModel.AgreesDeterminesContent` | caseloc/caseloc/Models/SavedLocationModel.swift:18-24 | a record agrees with a marker exactly when it is the marker's conversion at its own timestamp |
| `LocationManager.StartTracking` | caseloc/caseloc/Services/LocationManager.swift:42-45 | starting raises the service's tracking flag |
| `LocationManager.StopTracking` | caseloc/caseloc/Services/LocationManager.swift:47-50 | stopping lowers the service's tracking flag |
| `LocationManager.DidUpdateLocations` | caseloc/caseloc/Services/LocationManager.swift:180-193 | a fix is forwarded exactly when tracking is on, the batch is non-empty and its last fix is at most 5 s old with non-negative accuracy; the forwarded fix is always the last one |
| `LocationManager.OnlyLastFixCounts` | caseloc/caseloc/Services/LocationManager.swift:181 | the fixes before the last one of a batch never influence what is forwarded |
| `LocationManager.AgeBoundary` | caseloc/caseloc/Services/LocationManager.swift:183-186 | a fix exactly 5 s old passes and a fix older than 5 s is dropped |
| `LocationManager.FormatShortAddress` | caseloc/caseloc/Services/LocationManager.swift:100-124 | with no street, district or city, the short address is the placemark's name, or the unknown-address text when there is no name |
| `LocationManager.Present` | caseloc/caseloc/Services/LocationManager.swift:101-113 | the collected components are exactly the values present among the fields, never more than there are fields, and one per field when every field is present |
| `LocationManager.ShortAddressComponents` | caseloc/caseloc/Services/LocationManager.swift:100-124 | the components are exactly the present ones among street, district and city, in that order; once any is present the name plays no part |
| `LocationManager.ShortAddressSplits` | caseloc/caseloc/Services/LocationManager.swift:100-124 | cutting a short address at its commas gives back its components (each after the first led by the separator's space), provided no component contains a comma |
| `LocationManager.FormatDetailedAddress` | caseloc/caseloc/Services/LocationManager.swift:126-166 | a placemark with none of the seven line fields gives the unknown-address text |
| `LocationManager.DetailLinesCount` | caseloc/caseloc/Services/LocationManager.swift:126-160 | the detailed address has one line per present field among name, street, district, town, province, postal code and country; the house number never makes a line of its own |
| `LocationManager.HouseNumberNeedsStreet` | caseloc/caseloc/Services/LocationManager.swift:133-139 | without a street the house number does not appear at all |
| `LocationManager.DetailedAddressSplits` | caseloc/caseloc/Services/LocationManager.swift:126-166 | cutting the detailed address at newlines gives back its lines in order, provided no field contains a newline |
| `LocationManager.AddressText` | caseloc/caseloc/Services/LocationManager.swift:60-98 | an error yields the address-error text whatever placemarks came with it; no placemark yields the not-found text; otherwise the first placemark is formatted in the requested style; exactly one string is produced |
| `RouteStatistics.Insert` | caseloc/caseloc/Models/RouteStatistics.swift:27 | inserting into a time-sorted list keeps it sorted and adds exactly the one element |
| `RouteStatistics.SortByTime` | caseloc/caseloc/Models/RouteStatistics.swift:27 | the sorted copy is ordered by timestamp and is a permutation of the input |
| `RouteStatistics.SortedEnds` | caseloc/caseloc/Models/RouteStatistics.swift:27-30 | the first and last elements of the sorted copy carry the earliest and latest timestamps of the input |
| `RouteStatistics.Compute` | caseloc/caseloc/Models/RouteStatistics.swift:17-47 | fewer than 2 locations give zero distance, duration and speed and no start or end; otherwise start and end are the earliest and latest timestamps, the duration is their difference and is never negative, the distance is the leg sum along the time order, and the speed is distance over duration, or 0 when the duration is 0 |
| `RouteStatistics.SumLegs` | caseloc/caseloc/Models/RouteStatistics.swift:38-45 | the accumulating loop adds up exactly the legs between consecutive locations |
| `RouteStatistics.ComputeStatistics` | caseloc/caseloc/Models/RouteStatistics.swift:17-47 | the initialiser's steps (guard, sort, ends, loop, guarded division) produce the statistics described by `Compute` |
| `RouteStatistics.PathLengthNonNegative` | caseloc/caseloc/Models/RouteStatistics.swift:38-45 | with non-negative leg lengths the summed distance is non-negative |
| `RouteStatistics.StatisticsNonNegative` | caseloc/caseloc/Models/RouteStatistics.swift:38-46 | total distance and average speed are never negative |
| `RouteStatistics.SortedUnique` | caseloc/caseloc/Models/RouteStatistics.swift:27 | two time-sorted arrangements of the same locations are identical when locations sharing a timestamp are equal |
| `RouteStatistics.StatisticsIgnoreOrder` | caseloc/caseloc/Models/RouteStatistics.swift:27-46 | the statistics do not depend on the input order when no two different locations share a timestamp |
| `RouteStatistics.SortKeepsSorted` | caseloc/caseloc/Models/RouteStatistics.swift:27 | sorting a route that is already in time order leaves it unchanged |
| `RouteStatistics.StatisticsOfSortedRoute` | caseloc/caseloc/Models/RouteStatistics.swift:27-44 | a route given in time order starts at its first entry's time and ends at its last one's, and its length is the leg sum in the given order |
| `RouteStatistics.SortKeepsEqualTimes` | caseloc/caseloc/Models/RouteStatistics.swift:27 | locations that all share one timestamp keep their input order through the sort |
| `RouteStatistics.StatisticsOfSameTime` | caseloc/caseloc/Models/RouteStatistics.swift:27-46 | locations all sharing one timestamp give zero duration and zero speed, with the distance measured in input order |
| `RouteStatistics.StatisticsOfThree` | caseloc/caseloc/Models/RouteStatistics.swift:27-46 | three waypoints at 0 s, 60 s and 180 s, in time order, give a 180 s route from 0 s to 180 s whose length is the two legs and whose speed is that length over 180 s |
| `RouteStatistics.ThreeWaypointRoute` | caseloc/caseloc/Models/RouteStatistics.swift:27-46 | three waypoints at 0 s, 60 s and 180 s, handed over in any order, give a 180 s route whose length is the two legs in time order and whose speed is that length over 180 s |
| `RouteStatsFormat.Trunc` | caseloc/caseloc/Views/RouteStatsSheetViewController.swift:148-149 | the integer conversion truncates toward zero |
| `RouteStatsFormat.FormatDuration` | caseloc/caseloc/Views/RouteStatsSheetViewController.swift:147-156 | hours are shown exactly when the duration reaches one hour; for a non-negative duration the minutes lie in 0..59 and hours*3600 + minutes*60 <= seconds < that + 60 |
| `RouteStatsFormat.DurationIsFloorDivision` | caseloc/caseloc/Views/RouteStatsSheetViewController.swift:148-149 | for a non-negative duration the hours are floor(s/3600) and the minutes floor((s mod 3600)/60) |
| `RouteStatsFormat.FormatDistance` | caseloc/caseloc/Views/RouteStatsSheetViewController.swift:158-165 | the kilometre branch is taken exactly when the distance is at least 1000 m, with value metres/1000; otherwise metres are shown unchanged |
| `RouteStatsFormat.FormatSpeed` | caseloc/caseloc/Views/RouteStatsSheetViewController.swift:167-170 | the shown km/h value divided by 3.6 is the speed in m/s, with the same sign |
| `MapViewModel.Snapshot` | caseloc/caseloc/ViewModels/MapViewModel.swift:195 | one rebuilt record per marker, agreeing with it and stamped with the clock reading taken for that element |
| `MapViewModel.SaveRoute` | caseloc/caseloc/ViewModels/MapViewModel.swift:194-205 | after a save the saved locations match the markers one for one in content and order, each carries the clock reading taken while it was rebuilt, they are what is stored, and nothing else changes |
| `MapViewModel.ToMarkers` | caseloc/caseloc/ViewModels/MapViewModel.swift:217 | one fresh annotation per loaded record, converted from it |
| `MapViewModel.LoadSavedRoute` | caseloc/caseloc/ViewModels/MapViewModel.swift:207-229 | a stored route becomes the saved locations with one agreeing fresh marker each, always titled with its record's title, and its last coordinate becomes the last position; an absent or undecodable slot changes nothing |
| `MapViewModel.AddMarkerAt` | caseloc/caseloc/ViewModels/MapViewModel.swift:151-163 | exactly one new marker is appended (new identity, the position, the title, the placeholder subtitle); earlier markers are unchanged and the route is saved |
| `MapViewModel.DidUpdateLocation` | caseloc/caseloc/ViewModels/MapViewModel.swift:136-163 | with tracking off, or a later position under 100 m from the last one, nothing changes; the first position is always recorded as the starting point; a later one is recorded, titled with the current time, exactly when at least 100 m away; a recorded position appends one marker, keeps all earlier ones and becomes the last position |
| `MapViewModel.ResetRoute` | caseloc/caseloc/ViewModels/MapViewModel.swift:99-105 | markers and saved locations become empty, the last position is cleared, the empty route is stored, and the tracking and visibility flags are unchanged |
| `MapViewModel.SetSubtitle` | caseloc/caseloc/ViewModels/MapViewModel.swift:169 | only the captured annotation gets the address as its subtitle; every other marker and every other field is unchanged |
| `MapViewModel.FirstMatch` | caseloc/caseloc/ViewModels/MapViewModel.swift:171 | the index found is the first one whose coordinate equals the fix, and none is found only when no entry has that coordinate |
| `MapViewModel.PatchFirstMatch` | caseloc/caseloc/ViewModels/MapViewModel.swift:171-179 | only the first entry at the coordinate changes: it gets the address and the captured title and keeps its timestamp; no entry is added, and nothing changes when none matches |
| `MapViewModel.CompleteGeocode` | caseloc/caseloc/ViewModels/MapViewModel.swift:165-184 | the completion rewrites the subtitle of the captured marker only, never adds or removes a marker, saves the route, and leaves the last position and the flags alone |
| `MapViewModel.CompletionOverwritesPatch` | caseloc/caseloc/ViewModels/MapViewModel.swift:168-183 | the completion's result is the save of the marker update alone: the coordinate patch never survives the save that follows it |
| `MapViewModel.ToggleRouteVisibility` | caseloc/caseloc/ViewModels/MapViewModel.swift:45-57 | visibility is negated and nothing else changes; statistics of the saved locations are produced exactly when the route becomes visible with at least 2 markers |
| `MapViewModel.SetTracking` | caseloc/caseloc/ViewModels/MapViewModel.swift:89-97 | the view model's flag and the service's flag both take the requested value; nothing else changes |
| `MapViewModel.HandleAuthorizationStatus` | caseloc/caseloc/ViewModels/MapViewModel.swift:121-134 | undecided asks for permission, restricted or denied shows the permission alert, granted with tracking on restarts the service, and exactly the remaining cases (unknown, or granted with tracking off) do nothing; only the restart changes state |
| `MapViewModel.InitConsistent` | caseloc/caseloc/ViewModels/MapViewModel.swift:36-41 | the state built at construction, whatever the stored slot holds, satisfies the tracker invariant |
| `MapViewModel.RecordingKeepsConsistency` | caseloc/caseloc/ViewModels/MapViewModel.swift:136-163 | recording a position preserves the tracker invariant |
| `MapViewModel.CompletionKeepsConsistency` | caseloc/caseloc/ViewModels/MapViewModel.swift:165-184 | a geocoding completion preserves the tracker invariant |
| `MapViewModel.StepPreservesConsistency` | caseloc/caseloc/ViewModels/MapViewModel.swift:233-242 | every event preserves the tracker invariant: one agreeing saved location per marker, increasing marker identities, the last position on the last marker, both tracking flags equal, and the stored route equal to the saved locations |
| `MapViewModel.ForwardedFixPassesGate` | caseloc/caseloc/ViewModels/MapViewModel.swift:234-238 | under the invariant, a fix the service forwards always passes the view model's tracking gate |
| `MapViewModel.TrackingOffFreezesRoute` | caseloc/caseloc/ViewModels/MapViewModel.swift:234-238 | with tracking off, no batch of fixes changes anything |
| `MapViewModel.RouteIsAppendOnly` | caseloc/caseloc/ViewModels/MapViewModel.swift:99-185 | a reset empties the route; every other event keeps the recorded markers in order, up to their subtitles, and adds at most one |
| `MapViewModel.StaleCompletionKeepsRoute` | caseloc/caseloc/ViewModels/MapViewModel.swift:165-184 | a completion whose marker is no longer in the route leaves the markers unchanged, only re-saves, and adds nothing to an empty route |
| `MapViewModel.StepKeepsCreatedSince` | caseloc/caseloc/ViewModels/MapViewModel.swift:151-157 | no event brings back a marker identity older than the current route's |
| `MapViewModel.RunKeepsCreatedSince` | caseloc/caseloc/ViewModels/MapViewModel.swift:151-157 | the same holds over any sequence of events |
| `MapViewModel.LateCompletionAfterReset` | caseloc/caseloc/ViewModels/MapViewModel.swift:165-184 | a completion for a point recorded before a reset changes no marker, however many events came after the reset |
| `MapViewModel.RevisitPatchesEarliest` | caseloc/caseloc/ViewModels/MapViewModel.swift:171 | at a revisited coordinate, later entries are never patched while an earlier one matches |
| `MapViewModel.ReloadRestoresRoute` | caseloc/caseloc/ViewModels/MapViewModel.swift:194-229 | storing a route and loading it at start-up restores the saved locations exactly, the markers up to identity, and the last position |
| `MapViewModel.ResetThenReload` | caseloc/caseloc/ViewModels/MapViewModel.swift:99-105 | after a reset, loading gives an empty route whose statistics are the zero result |
| `MapViewModel.SnapshotInTimeOrder` | caseloc/caseloc/ViewModels/MapViewModel.swift:195 | when the clock does not run backwards, the rebuilt locations are in time order |
| `MapViewModel.SavedRouteSpansTheSave` | caseloc/caseloc/ViewModels/MapViewModel.swift:195 | statistics taken right after a save have as duration the time from the first rebuilt element to the last, as distance the leg sum in recording order, and as speed that distance over that time; the speed is 0 when all readings coincide, and positive when they differ and the route has positive length |

## Left out

- User interface: views, buttons, alerts, toasts, the statistics sheet's layout and the map controller. These are UIKit wiring with no logic of their own.
- Map rendering: annotation views, the polyline and its placeholder two-point fallback for short routes.
- Delegate notifications (markers updated, tracking changed, route reset, visibility toggled, statistics ready) are not modelled as outputs. `ToggleRouteVisibility` returns the statistics it would send.
- The geodesic distance formula: it is a platform floating-point routine, and the model takes it as the parameter `dist`.
- Floating point: coordinates, times and distances are reals. `Int(...)` trapping on values outside the 64-bit range, and NaN or infinite inputs, are not modelled.
- `DateFormatter` and `String(format:)` output: the time title, the placeholder subtitle and the "%.2f"/"%.0f" digits. The model keeps the branch and the numeric value.
- MapViewModel.SavedRouteSpansTheSave: assumes the clock does not run backwards during one save. With a clock that jumps back, `Compute` still gives the earliest and latest readings, but the order of the legs is then no longer the recording order.
- JSON encoding and decoding: the slot holds the decoded value. Encoding failure (possible only for non-finite doubles) and its log line are not modelled.
- `DispatchQueue.main.async` and the weak capture of the view model: each completion is one event on the same state, and the view model is assumed alive.
- Platform calls without logic: `requestLocationPermission`, `checkLocationPermission` (its status enters through `HandleAuthorizationStatus`), `getCurrentLocation`, `isUserAtStartingPosition`, `didFailWithError` (logs only), and `getDetailedAddress`, which only forwards to the service (its text mapping is `AddressText` with the detailed style).
- The sort: Swift's `sorted` is modelled as a stable insertion sort. Properties that depend on the order of equal timestamps assume that stability.
- Durations below zero are modelled by `FormatDuration`, but no property is stated for them. The statistics never produce one.
- Calling the completion exactly once is reflected by `AddressText` returning a single string. There is no separate count of calls.

=== FILE: constants.dfy ===
/** The literal values of the application that the route-tracking core reads. */
module Constants {

  /** Minimum distance in metres between two recorded waypoints. */
  const MinimumDistanceThreshold: real := 100.0

  /** A delivered fix older than this many seconds is discarded. */
  const MaximumFixAge: real := 5.0

  /** Title of the first waypoint of a route. */
  const StartingPoint: string := "Başlangıç Noktası"

  /** Title used for a saved location whose marker carries no title. */
  const DefaultTitle: string := "Konum"

  const UnknownAddress: string := "Bilinmeyen Adres"
  const AddressNotFound: string := "Adres bilgisi bulunamadı"
  const AddressError: string := "Adres bilgisi alınamadı"

  const PermissionMessage: string := "Konumunuzu görebilmek için konum izni vermeniz gerekmektedir. Ayarlar'a giderek izin verebilirsiniz."
}

=== FILE: location_manager.dfy ===
/**
 * The location service wrapper: its tracking flag, the filter applied to each
 * delivered batch of fixes, and the mapping of reverse-geocoding outcomes to
 * address text.
 */
module LocationManager {
  import opened Optional
  import Constants
  import Text
  import opened SavedLocationModel

  /** A raw fix: where, when (seconds on the application's clock) and how precisely. */
  datatype Fix = Fix(coordinate: Coord, timestamp: real, horizontalAccuracy: real)

  /** The wrapper's own tracking flag; it starts out true. */
  datatype ServiceState = ServiceState(isTrackingEnabled: bool)

  const InitialService := ServiceState(true)

  /** `startTracking()`: raises the flag (and starts platform updates, which are not modelled). */
  function StartTracking(m: ServiceState): (r: ServiceState)
    ensures r.isTrackingEnabled
  {
    m.(isTrackingEnabled := true)
  }

  /** `stopTracking()`: lowers the flag. */
  function StopTracking(m: ServiceState): (r: ServiceState)
    ensures !r.isTrackingEnabled
  {
    m.(isTrackingEnabled := false)
  }

  /** How long before `now` the fix was taken. */
  function Age(f: Fix, now: real): real {
    now - f.timestamp
  }

  /** A fix that the filter lets through on its own merits: fresh enough and with a valid accuracy. */
  predicate Usable(f: Fix, now: real) {
    Age(f, now) <= Constants.MaximumFixAge && f.horizontalAccuracy >= 0.0
  }

  /**
   * The batch filter of `didUpdateLocations`: only the last fix of the batch
   * is considered, and it is forwarded only while tracking, when it is at most
   * five seconds old and when its accuracy is not negative.
   */
  function DidUpdateLocations(m: ServiceState, batch: seq<Fix>, now: real): (r: Option<Fix>)
    ensures r.Some? <==> m.isTrackingEnabled && |batch| > 0 && Usable(batch[|batch| - 1], now)
    ensures r.Some? ==> r.value == batch[|batch| - 1]
  {
    if !m.isTrackingEnabled || |batch| == 0 then None
    else
      var f := batch[|batch| - 1];
      if Age(f, now) > Constants.MaximumFixAge then None
      else if f.horizontalAccuracy < 0.0 then None
      else Some(f)
  }

  /** Earlier fixes of a batch never influence what is forwarded. */
  lemma OnlyLastFixCounts(m: ServiceState, earlier: seq<Fix>, f: Fix, now: real)
    ensures DidUpdateLocations(m, earlier + [f], now) == DidUpdateLocations(m, [f], now)
  {
  }

  /** The age bound is inclusive: a fix exactly five seconds old passes, anything older does not. */
  lemma AgeBoundary(c: Coord, now: real, accuracy: real, late: real)
    requires accuracy >= 0.0
    requires late > 5.0
    ensures DidUpdateLocations(InitialService, [Fix(c, now - 5.0, accuracy)], now).Some?
    ensures DidUpdateLocations(InitialService, [Fix(c, now - late, accuracy)], now).None?
  {
  }

  // ---------------------------------------------------------------------
  // Reverse geocoding

  /** The placemark fields the address formatters read. */
  datatype Placemark = Placemark(
    name: Option<string>,
    thoroughfare: Option<string>,
    subThoroughfare: Option<string>,
    subLocality: Option<string>,
    locality: Option<string>,
    administrativeArea: Option<string>,
    postalCode: Option<string>,
    country: Option<string>)

  function Count(o: Option<string>): nat {
    if o.Some? then 1 else 0
  }

  /** The values present among `xs`, in order. */
  function Present(xs: seq<Option<string>>): (r: seq<string>)
    ensures |r| <= |xs|
    ensures forall v :: v in r <==> Some(v) in xs
    ensures (forall i :: 0 <= i < |xs| ==> xs[i].Some?) ==> |r| == |xs|
  {
    if |xs| == 0 then []
    else (if xs[0].Some? then [xs[0].value] else []) + Present(xs[1..])
  }

  lemma PresentCons(x: Option<string>, ys: seq<Option<string>>)
    ensures Present([x] + ys) == (if x.Some? then [x.value] else []) + Present(ys)
  {
    assert ([x] + ys)[1..] == ys;
  }

  /** The components of the short address: street, district, city, each when present. */
  function ShortComponents(p: Placemark): seq<string>
  {
    var street := if p.thoroughfare.Some? then [p.thoroughfare.value] else [];
    var district := if p.subLocality.Some? then [p.subLocality.value] else [];
    var city := if p.locality.Some? then [p.locality.value] else [];
    street + district + city
  }

  /** `formatShortAddress(from:)`. */
  function FormatShortAddress(p: Placemark): (r: string)
    ensures |ShortComponents(p)| == 0 && p.name.Some? ==> r == p.name.value
    ensures |ShortComponents(p)| == 0 && p.name.None? ==> r == Constants.UnknownAddress
  {
    var parts := ShortComponents(p);
    if |parts| == 0 then p.name.GetOr(Constants.UnknownAddress)
    else Text.Join(parts, ", ")
  }

  /**
   * The short address lists exactly the present fields among street,
   * district and city, in that order; once one of them is present the
   * placemark's name plays no part.
   */
  lemma ShortAddressComponents(p: Placemark, otherName: Option<string>)
    ensures ShortComponents(p) == Present([p.thoroughfare, p.subLocality, p.locality])
    ensures |ShortComponents(p)| > 0 ==> FormatShortAddress(p) == FormatShortAddress(p.(name := otherName))
  {
    PresentCons(p.locality, []);
    PresentCons(p.subLocality, [p.locality]);
    PresentCons(p.thoroughfare, [p.subLocality, p.locality]);
  }

  /**
   * Cutting a short address at its commas gives back its components, each
   * after the first still led by the space of the ", " separator, as long as
   * no component contains a comma itself.
   */
  lemma {:induction false} ShortAddressSplits(p: Placemark)
    requires |ShortComponents(p)| > 0
    requires Text.Free(ShortComponents(p), ',')
    ensures Text.Split(FormatShortAddress(p), ',') == Text.Prefixed(ShortComponents(p), " ")
  {
    var parts := ShortComponents(p);
    Text.JoinShift(parts, ',', " ");
    assert [','] + " " == ", ";
    var shifted := Text.Prefixed(parts, " ");
    assert Text.Free(shifted, ',') by {
      forall i | 0 <= i < |shifted| ensures ',' !in shifted[i] {
        if i > 0 {
          assert shifted[i] == " " + parts[i];
        }
      }
    }
    Text.SplitJoin(shifted, ',');
  }

  /** A labelled line for a field, when the field is present. */
  function Line(tag: string, field: Option<string>): (r: seq<string>)
    ensures |r| == Count(field)
  {
    if field.Some? then [tag + field.value] else []
  }

  /** The street line, with the house number appended when there is one. */
  function StreetLine(p: Placemark): (r: seq<string>)
    ensures |r| == Count(p.thoroughfare)
  {
    if p.thoroughfare.Some? then
      ["Sokak: " + p.thoroughfare.value
       + (if p.subThoroughfare.Some? then " No: " + p.subThoroughfare.value else "")]
    else []
  }

  /** The labelled lines of the detailed address, in their fixed order. */
  function DetailLines(p: Placemark): seq<string>
  {
    Line("Yer: ", p.name)
    + StreetLine(p)
    + Line("Mahalle: ", p.subLocality)
    + Line("İlçe: ", p.locality)
    + Line("İl: ", p.administrativeArea)
    + Line("Posta Kodu: ", p.postalCode)
    + Line("Ülke: ", p.country)
  }

  /** `formatDetailedAddress(from:)`: the lines joined by newlines, or the unknown-address text. */
  function FormatDetailedAddress(p: Placemark): (r: string)
    ensures |DetailLines(p)| == 0 ==> r == Constants.UnknownAddress
  {
    var lines := DetailLines(p);
    if |lines| == 0 then Constants.UnknownAddress else Text.Join(lines, "\n")
  }

  /** One line per present field: the house number never makes a line of its own. */
  lemma DetailLinesCount(p: Placemark)
    ensures |DetailLines(p)|
         == Count(p.name) + Count(p.thoroughfare) + Count(p.subLocality) + Count(p.locality)
          + Count(p.administrativeArea) + Count(p.postalCode) + Count(p.country)
  {
  }

  /** Without a street the house number is not shown at all. */
  lemma HouseNumberNeedsStreet(p: Placemark, number: Option<string>)
    requires p.thoroughfare.None?
    ensures DetailLines(p) == DetailLines(p.(subThoroughfare := number))
  {
  }

  predicate NoNewline(o: Option<string>) {
    o.Some? ==> '\n' !in o.value
  }

  /** A newline-free tag and field give a newline-free line. */
  lemma LineFree(tag: string, field: Option<string>)
    requires '\n' !in tag && NoNewline(field)
    ensures Text.Free(Line(tag, field), '\n')
  {
    if field.Some? {
      assert forall k :: 0 <= k < |tag + field.value| ==> (tag + field.value)[k] != '\n';
    }
  }

  /** The street line is newline-free when the street and the house number are. */
  lemma StreetLineFree(p: Placemark)
    requires NoNewline(p.thoroughfare) && NoNewline(p.subThoroughfare)
    ensures Text.Free(StreetLine(p), '\n')
  {
    if p.thoroughfare.Some? {
      var number := if p.subThoroughfare.Some? then " No: " + p.subThoroughfare.value else "";
      assert '\n' !in number;
      var line := "Sokak: " + p.thoroughfare.value + number;
      assert forall k :: 0 <= k < |line| ==> line[k] != '\n';
    }
  }

  /**
   * Cutting the detailed address at newlines gives back its lines, provided
   * no field contains a newline of its own.
   */
  lemma {:induction false} DetailedAddressSplits(p: Placemark)
    requires |DetailLines(p)| > 0
    requires NoNewline(p.name) && NoNewline(p.thoroughfare) && NoNewline(p.subThoroughfare)
    requires NoNewline(p.subLocality) && NoNewline(p.locality) && NoNewline(p.administrativeArea)
    requires NoNewline(p.postalCode) && NoNewline(p.country)
    ensures Text.Split(FormatDetailedAddress(p), '\n') == DetailLines(p)
  {
    LineFree("Yer: ", p.name);
    StreetLineFree(p);
    LineFree("Mahalle: ", p.subLocality);
    LineFree("İlçe: ", p.locality);
    LineFree("İl: ", p.administrativeArea);
    LineFree("Posta Kodu: ", p.postalCode);
    LineFree("Ülke: ", p.country);
    var lines := DetailLines(p);
    Text.FreeConcat(Line("Yer: ", p.name), StreetLine(p), '\n');
    Text.FreeConcat(Line("Yer: ", p.name) + StreetLine(p), Line("Mahalle: ", p.subLocality), '\n');
    Text.FreeConcat(Line("Yer: ", p.name) + StreetLine(p) + Line("Mahalle: ", p.subLocality),
      Line("İlçe: ", p.locality), '\n');
    Text.FreeConcat(Line("Yer: ", p.name) + StreetLine(p) + Line("Mahalle: ", p.subLocality)
      + Line("İlçe: ", p.locality), Line("İl: ", p.administrativeArea), '\n');
    Text.FreeConcat(Line("Yer: ", p.name) + StreetLine(p) + Line("Mahalle: ", p.subLocality)
      + Line("İlçe: ", p.locality) + Line("İl: ", p.administrativeArea), Line("Posta Kodu: ", p.postalCode), '\n');
    Text.FreeConcat(Line("Yer: ", p.name) + StreetLine(p) + Line("Mahalle: ", p.subLocality)
      + Line("İlçe: ", p.locality) + Line("İl: ", p.administrativeArea) + Line("Posta Kodu: ", p.postalCode),
      Line("Ülke: ", p.country), '\n');
    Text.SplitJoin(lines, '\n');
  }

  /** What the geocoder hands back: possibly some placemarks, possibly an error. */
  datatype GeocodeResponse = GeocodeResponse(placemarks: Option<seq<Placemark>>, error: Option<string>)

  /** `reverseGeocodeLocation` uses the short format, `getDetailedAddress` the detailed one. */
  datatype AddressStyle = Short | Detailed

  function Format(style: AddressStyle, p: Placemark): string {
    match style
    case Short => FormatShortAddress(p)
    case Detailed => FormatDetailedAddress(p)
  }

  /**
   * The single string handed to the completion: an error wins over any
   * placemarks, a missing or empty placemark list reads "not found", and
   * otherwise the first placemark is formatted.
   */
  function AddressText(resp: GeocodeResponse, style: AddressStyle): (r: string)
    ensures resp.error.Some? ==> r == Constants.AddressError
    ensures resp.error.None? && (resp.placemarks.None? || |resp.placemarks.value| == 0) ==> r == Constants.AddressNotFound
    ensures resp.error.None? && resp.placemarks.Some? && |resp.placemarks.value| > 0 ==> r == Format(style, resp.placemarks.value[0])
  {
    if resp.error.Some? then Constants.AddressError
    else match resp.placemarks
      case None => Constants.AddressNotFound
      case Some(ps) => if |ps| == 0 then Constants.AddressNotFound else Format(style, ps[0])
  }

  /** The platform's authorization states; `Unknown` stands for any case added later. */
  datatype AuthorizationStatus = NotDetermined | Restricted | Denied | AuthorizedWhenInUse | AuthorizedAlways | Unknown
}

=== FILE: map_view_model.dfy ===
/**
 * The route tracker: the recorded markers and saved locations, the last
 * accepted position, the tracking and visibility flags, and the events that
 * change them. Platform services appear as parameters (`Env`) or as the
 * values their callbacks deliver.
 */
module MapViewModel {
  import opened Optional
  import Constants
  import opened SavedLocationModel
  import LM = LocationManager
  import RS = RouteStatistics

  /** The durable slot holding the route: nothing yet, a decodable route, or undecodable data. */
  datatype Slot = Absent | Stored(locations: seq<SavedLocation>) | Unreadable

  datatype TrackerState = TrackerState(
    markers: seq<Marker>,
    savedLocations: seq<SavedLocation>,
    lastLocation: Option<Coord>,
    isTrackingEnabled: bool,
    isRouteVisible: bool,
    service: LM.ServiceState,
    nextMarker: nat,    // identity of the next annotation object to be created
    persisted: Slot)

  /**
   * What an event reads from its surroundings: the clock (`now`, and
   * `timeLabel`, its hour:minute:second rendering), the rendering of a
   * coordinate as the placeholder subtitle, the geodesic distance, and
   * `stamps`, the clock readings a save takes: `stamps(i)` is the time the
   * `i`-th saved location is rebuilt at.
   */
  datatype Env = Env(
    now: real,
    timeLabel: string,
    coordText: Coord -> string,
    dist: (Coord, Coord) -> real,
    stamps: nat -> real)

  /** What the reverse-geocoding completion of one accepted fix holds on to. */
  datatype GeocodeRequest = GeocodeRequest(marker: nat, coordinate: Coord, title: string)

  /** The state before the stored route is loaded: both tracking flags on, route hidden. */
  function Blank(slot: Slot): TrackerState {
    TrackerState([], [], None, true, false, LM.InitialService, 0, slot)
  }

  function LastCoordinate(ms: seq<Marker>): Option<Coord> {
    if |ms| == 0 then None else Some(ms[|ms| - 1].coordinate)
  }

  // ---------------------------------------------------------------------
  // Persistence

  /** The saved locations rebuilt from the markers, each stamped with the clock reading taken for it. */
  function Snapshot(markers: seq<Marker>, stamps: nat -> real): (r: seq<SavedLocation>)
    ensures |r| == |markers|
    ensures forall i :: 0 <= i < |r| ==> Agrees(markers[i], r[i]) && r[i].timestamp == stamps(i)
  {
    var r := seq(|markers|, i requires 0 <= i < |markers| => FromMarker(markers[i], stamps(i)));
    assert forall i :: 0 <= i < |r| ==> r[i] == FromMarker(markers[i], stamps(i));
    r
  }

  /**
   * `saveRouteToUserDefaults`: the saved locations are rebuilt from the
   * markers, one per marker in the same order and with the same content,
   * each carrying the clock reading taken when it was rebuilt rather than
   * its time of creation; the rebuilt list is what gets stored. Nothing
   * else changes.
   */
  function SaveRoute(s: TrackerState, stamps: nat -> real): (r: TrackerState)
    ensures |r.savedLocations| == |s.markers|
    ensures forall i :: 0 <= i < |s.markers| ==>
      Agrees(s.markers[i], r.savedLocations[i]) && r.savedLocations[i].timestamp == stamps(i)
    ensures r.persisted == Stored(r.savedLocations)
    ensures r == s.(savedLocations := r.savedLocations, persisted := r.persisted)
  {
    var rebuilt := Snapshot(s.markers, stamps);
    s.(savedLocations := rebuilt, persisted := Stored(rebuilt))
  }

  /** The markers `toMarker()` creates for a loaded route, with consecutive fresh identities. */
  function ToMarkers(locations: seq<SavedLocation>, first: nat): (r: seq<Marker>)
    ensures |r| == |locations|
    ensures forall i :: 0 <= i < |r| ==> r[i] == ToMarker(locations[i], first + i)
  {
    seq(|locations|, i requires 0 <= i < |locations| => ToMarker(locations[i], first + i))
  }

  /**
   * `loadSavedRoute`: a decodable stored route becomes the saved locations,
   * one fresh marker each, and its last coordinate becomes the last accepted
   * position; an absent or undecodable slot leaves everything as it was.
   */
  function LoadSavedRoute(s: TrackerState): (r: TrackerState)
    ensures !s.persisted.Stored? ==> r == s
    ensures s.persisted.Stored? ==>
      && r.savedLocations == s.persisted.locations
      && |r.markers| == |r.savedLocations|
      && (forall i :: 0 <= i < |r.markers| ==>
            && Agrees(r.markers[i], r.savedLocations[i])
            && r.markers[i].title == Some(r.savedLocations[i].title)
            && r.markers[i].id == s.nextMarker + i)
      && r.nextMarker == s.nextMarker + |r.markers|
    ensures s.persisted.Stored? && |s.persisted.locations| > 0 ==>
      r.lastLocation == Some(ToLocation(s.persisted.locations[|s.persisted.locations| - 1]))
    ensures s.persisted.Stored? && |s.persisted.locations| == 0 ==> r.lastLocation == s.lastLocation
    ensures r.isTrackingEnabled == s.isTrackingEnabled && r.isRouteVisible == s.isRouteVisible
    ensures r.service == s.service && r.persisted == s.persisted
  {
    match s.persisted
    case Absent => s
    case Unreadable => s
    case Stored(locations) =>
      var loaded := s.(
        savedLocations := locations,
        markers := ToMarkers(locations, s.nextMarker),
        nextMarker := s.nextMarker + |locations|);
      if |locations| > 0 then loaded.(lastLocation := Some(ToLocation(locations[|locations| - 1])))
      else loaded
  }

  /** The view model as constructed: the stored route is loaded into a blank state. */
  function Init(slot: Slot): TrackerState {
    LoadSavedRoute(Blank(slot))
  }

  // ---------------------------------------------------------------------
  // Recording

  /** The annotation `addMarkerAt` creates for an accepted position. */
  function NewMarker(s: TrackerState, c: Coord, title: string, env: Env): Marker {
    Marker(s.nextMarker, c, Some(title), Some(env.coordText(c)))
  }

  /**
   * `addMarkerAt`: one new marker at the end, nothing else in the route
   * touched; the saved location appended beside it is then replaced, with
   * all the others, by the save that follows.
   */
  function AddMarkerAt(s: TrackerState, c: Coord, title: string, env: Env): (r: TrackerState)
    ensures |r.markers| == |s.markers| + 1
    ensures r.markers[..|s.markers|] == s.markers
    ensures r.markers[|s.markers|] == NewMarker(s, c, title, env)
    ensures r.nextMarker == s.nextMarker + 1
    ensures r == SaveRoute(r, env.stamps)
    ensures r.lastLocation == s.lastLocation
    ensures r.isTrackingEnabled == s.isTrackingEnabled && r.isRouteVisible == s.isRouteVisible
    ensures r.service == s.service
  {
    var marker := NewMarker(s, c, title, env);
    var appended := s.(
      markers := s.markers + [marker],
      savedLocations := s.savedLocations + [FromLocation(c, title, marker.subtitle, env.now)],
      nextMarker := s.nextMarker + 1);
    SaveRoute(appended, env.stamps)
  }

  /** `checkLocationChange`: the first position is the starting point; later ones must be far enough. */
  function CheckLocationChange(s: TrackerState, c: Coord, env: Env): TrackerState {
    match s.lastLocation
    case None =>
      AddMarkerAt(s.(lastLocation := Some(c)), c, Constants.StartingPoint, env)
    case Some(last) =>
      if env.dist(last, c) >= Constants.MinimumDistanceThreshold then
        AddMarkerAt(s, c, env.timeLabel, env).(lastLocation := Some(c))
      else s
  }

  /** Whether a forwarded position becomes a waypoint. */
  predicate Accepts(s: TrackerState, c: Coord, dist: (Coord, Coord) -> real) {
    && s.isTrackingEnabled
    && (s.lastLocation.None? || dist(s.lastLocation.value, c) >= Constants.MinimumDistanceThreshold)
  }

  /**
   * The `didUpdateLocation` callback. While tracking is off nothing changes.
   * The very first position is always recorded as the starting point; a later
   * one is recorded, with the current time as its title, exactly when it lies
   * at least the threshold away from the last recorded one. A recorded
   * position appends one marker, keeps all earlier ones and becomes the last
   * position; any other position changes nothing at all.
   */
  function DidUpdateLocation(s: TrackerState, c: Coord, env: Env): (r: TrackerState)
    ensures !Accepts(s, c, env.dist) ==> r == s
    ensures Accepts(s, c, env.dist) ==>
      && |r.markers| == |s.markers| + 1
      && r.markers[..|s.markers|] == s.markers
      && r.markers[|s.markers|].coordinate == c
      && r.markers[|s.markers|].id == s.nextMarker
      && r.nextMarker == s.nextMarker + 1
      && r.service == s.service
      && r.markers[|s.markers|].title
         == Some(if s.lastLocation.None? then Constants.StartingPoint else env.timeLabel)
      && r.lastLocation == Some(c)
      && r == SaveRoute(r, env.stamps)
      && r.isTrackingEnabled == s.isTrackingEnabled
      && r.isRouteVisible == s.isRouteVisible
  {
    if s.isTrackingEnabled then CheckLocationChange(s, c, env) else s
  }

  // ---------------------------------------------------------------------
  // Reset and the late geocoding completion

  /**
   * `resetRoute`: the route and the last position are cleared and the empty
   * route is stored; tracking and visibility are left alone.
   */
  function ResetRoute(s: TrackerState, stamps: nat -> real): (r: TrackerState)
    ensures r.markers == [] && r.savedLocations == [] && r.lastLocation.None?
    ensures r.persisted == Stored([])
    ensures r.isTrackingEnabled == s.isTrackingEnabled && r.isRouteVisible == s.isRouteVisible
    ensures r.service == s.service && r.nextMarker == s.nextMarker
  {
    SaveRoute(s.(markers := [], lastLocation := None, savedLocations := []), stamps)
  }

  /** The completion writes the address into the annotation object it captured, wherever it now is. */
  function SetSubtitle(ms: seq<Marker>, id: nat, text: string): (r: seq<Marker>)
    ensures |r| == |ms|
    ensures forall i :: 0 <= i < |ms| ==>
      && r[i].id == ms[i].id && r[i].coordinate == ms[i].coordinate && r[i].title == ms[i].title
      && r[i].subtitle == (if ms[i].id == id then Some(text) else ms[i].subtitle)
  {
    seq(|ms|, i requires 0 <= i < |ms| => if ms[i].id == id then ms[i].(subtitle := Some(text)) else ms[i])
  }

  /** `firstIndex(where:)` on exact coordinate equality. */
  function FirstMatch(xs: seq<SavedLocation>, c: Coord): (r: Option<nat>)
    ensures r.Some? ==> r.value < |xs| && xs[r.value].Coordinate() == c
    ensures r.Some? ==> forall j :: 0 <= j < r.value ==> xs[j].Coordinate() != c
    ensures r.None? ==> forall j :: 0 <= j < |xs| ==> xs[j].Coordinate() != c
  {
    if |xs| == 0 then None
    else if xs[0].Coordinate() == c then Some(0)
    else match FirstMatch(xs[1..], c)
      case None => None
      case Some(k) => Some(k + 1)
  }

  /**
   * The coordinate-matched patch of the saved locations: the first entry at
   * the captured coordinate gets the address as subtitle and the captured
   * title, keeping its timestamp; no other entry changes and none is added.
   */
  function PatchFirstMatch(xs: seq<SavedLocation>, req: GeocodeRequest, address: string): (r: seq<SavedLocation>)
    ensures |r| == |xs|
    ensures FirstMatch(xs, req.coordinate).None? ==> r == xs
    ensures FirstMatch(xs, req.coordinate).Some? ==>
      var k := FirstMatch(xs, req.coordinate).value;
      && r[k].Coordinate() == xs[k].Coordinate()
      && r[k].subtitle == Some(address)
      && r[k].title == req.title
      && r[k].timestamp == xs[k].timestamp
      && forall j :: 0 <= j < |xs| && j != k ==> r[j] == xs[j]
  {
    match FirstMatch(xs, req.coordinate)
    case None => xs
    case Some(k) => xs[k := FromLocation(req.coordinate, req.title, Some(address), xs[k].timestamp)]
  }

  /**
   * The reverse-geocoding completion of an accepted fix: the captured marker
   * gets the address as its subtitle (only it, and only if it is still part
   * of the route), the first saved location at the same coordinate is
   * patched, and the route is saved again.
   */
  function CompleteGeocode(s: TrackerState, req: GeocodeRequest, address: string, stamps: nat -> real): (r: TrackerState)
    ensures |r.markers| == |s.markers|
    ensures forall i :: 0 <= i < |s.markers| && s.markers[i].id != req.marker ==> r.markers[i] == s.markers[i]
    ensures forall i :: 0 <= i < |s.markers| && s.markers[i].id == req.marker ==>
      r.markers[i] == s.markers[i].(subtitle := Some(address))
    ensures r == SaveRoute(r, stamps)
    ensures r.lastLocation == s.lastLocation && r.nextMarker == s.nextMarker
    ensures r.isTrackingEnabled == s.isTrackingEnabled && r.isRouteVisible == s.isRouteVisible
    ensures r.service == s.service
  {
    var markers := SetSubtitle(s.markers, req.marker, address);
    var patched := PatchFirstMatch(s.savedLocations, req, address);
    SaveRoute(s.(markers := markers, savedLocations := patched), stamps)
  }

  /**
   * The save at the end of the completion rebuilds the saved locations from
   * the markers, so the coordinate-matched patch never survives it: the
   * lasting effect of a completion is the subtitle of the captured marker.
   */
  lemma CompletionOverwritesPatch(s: TrackerState, req: GeocodeRequest, address: string, stamps: nat -> real)
    ensures CompleteGeocode(s, req, address, stamps)
         == SaveRoute(s.(markers := SetSubtitle(s.markers, req.marker, address)), stamps)
  {
  }

  // ---------------------------------------------------------------------
  // Visibility, tracking switch, authorization

  datatype ToggleOutcome = ToggleOutcome(state: TrackerState, statistics: Option<RS.Stats>)

  /**
   * `toggleRouteVisibility`: the visibility flag flips; statistics of the
   * saved locations are produced exactly when the route becomes visible
   * with at least two markers.
   */
  function ToggleRouteVisibility(s: TrackerState, dist: (Coord, Coord) -> real): (r: ToggleOutcome)
    ensures r.state == s.(isRouteVisible := !s.isRouteVisible)
    ensures r.statistics.Some? <==> r.state.isRouteVisible && |s.markers| >= 2
    ensures r.statistics.Some? ==> r.statistics.value == RS.Compute(s.savedLocations, dist)
  {
    var visible := !s.isRouteVisible;
    var state := s.(isRouteVisible := visible);
    if visible && |s.markers| >= 2 then ToggleOutcome(state, Some(RS.Compute(s.savedLocations, dist)))
    else ToggleOutcome(state, None)
  }

  /** `setTracking(enabled:)`: both the view model's flag and the service's flag take the new value. */
  function SetTracking(s: TrackerState, enabled: bool): (r: TrackerState)
    ensures r.isTrackingEnabled == enabled && r.service.isTrackingEnabled == enabled
    ensures r == s.(isTrackingEnabled := enabled, service := r.service)
  {
    var service := if enabled then LM.StartTracking(s.service) else LM.StopTracking(s.service);
    s.(isTrackingEnabled := enabled, service := service)
  }

  /** What the authorization handler asks of the platform or the user. */
  datatype AuthAction = RequestPermission | ShowPermissionAlert(message: string) | StartUpdates | NoAction

  datatype AuthOutcome = AuthOutcome(state: TrackerState, action: AuthAction)

  predicate Authorized(status: LM.AuthorizationStatus) {
    status == LM.AuthorizedWhenInUse || status == LM.AuthorizedAlways
  }

  /**
   * `handleAuthorizationStatus`: an undecided status asks for permission, a
   * refused one shows the permission alert, a granted one restarts updates
   * if tracking is on, and an unknown one does nothing. Only a granted
   * status with tracking on changes state, and then only the service flag.
   */
  function HandleAuthorizationStatus(s: TrackerState, status: LM.AuthorizationStatus): (r: AuthOutcome)
    ensures status == LM.NotDetermined <==> r.action == RequestPermission
    ensures status == LM.Restricted || status == LM.Denied <==>
      r.action == ShowPermissionAlert(Constants.PermissionMessage)
    ensures Authorized(status) && s.isTrackingEnabled <==> r.action == StartUpdates
    ensures status == LM.Unknown || (Authorized(status) && !s.isTrackingEnabled) <==> r.action == NoAction
    ensures r.action == StartUpdates ==> r.state == s.(service := LM.StartTracking(s.service))
    ensures r.action != StartUpdates ==> r.state == s
  {
    match status
    case NotDetermined => AuthOutcome(s, RequestPermission)
    case Restricted => AuthOutcome(s, ShowPermissionAlert(Constants.PermissionMessage))
    case Denied => AuthOutcome(s, ShowPermissionAlert(Constants.PermissionMessage))
    case AuthorizedWhenInUse =>
      if s.isTrackingEnabled then AuthOutcome(s.(service := LM.StartTracking(s.service)), StartUpdates)
      else AuthOutcome(s, NoAction)
    case AuthorizedAlways =>
      if s.isTrackingEnabled then AuthOutcome(s.(service := LM.StartTracking(s.service)), StartUpdates)
      else AuthOutcome(s, NoAction)
    case Unknown => AuthOutcome(s, NoAction)
  }

  // ---------------------------------------------------------------------
  // The tracker as an event-driven machine

  datatype Event =
    | LocationBatch(fixes: seq<LM.Fix>)
    | GeocodeDone(request: GeocodeRequest, response: LM.GeocodeResponse)
    | ResetRequested
    | ToggleRoute
    | TrackingSwitched(enabled: bool)
    | AuthorizationChanged(status: LM.AuthorizationStatus)

  /** One event, processed to completion on the single thread that owns the state. */
  function Step(s: TrackerState, e: Event, env: Env): TrackerState {
    match e
    case LocationBatch(fixes) =>
      (match LM.DidUpdateLocations(s.service, fixes, env.now)
       case None => s
       case Some(f) => DidUpdateLocation(s, f.coordinate, env))
    case GeocodeDone(req, response) =>
      CompleteGeocode(s, req, LM.AddressText(response, LM.Short), env.stamps)
    case ResetRequested => ResetRoute(s, env.stamps)
    case ToggleRoute => ToggleRouteVisibility(s, env.dist).state
    case TrackingSwitched(enabled) => SetTracking(s, enabled)
    case AuthorizationChanged(status) => HandleAuthorizationStatus(s, status).state
  }

  /**
   * What holds between events: one saved location per marker with the same
   * content, every marker titled, marker identities increasing and all
   * below the next one to be handed out, the last position at the last
   * marker, the two tracking flags in step, and the stored route equal to
   * the saved locations whenever anything has been stored.
   */
  predicate Consistent(s: TrackerState) {
    RouteConsistent(s) && s.lastLocation == LastCoordinate(s.markers)
  }

  /** Everything `Consistent` asks of a state except where the last position lies. */
  predicate RouteConsistent(s: TrackerState) {
    && |s.savedLocations| == |s.markers|
    && (forall i :: 0 <= i < |s.markers| ==> Agrees(s.markers[i], s.savedLocations[i]))
    && (forall i :: 0 <= i < |s.markers| ==> s.markers[i].title.Some? && s.markers[i].id < s.nextMarker)
    && (forall i, j :: 0 <= i < j < |s.markers| ==> s.markers[i].id < s.markers[j].id)
    && s.service.isTrackingEnabled == s.isTrackingEnabled
    && (s.persisted.Stored? ==> s.persisted.locations == s.savedLocations)
    && (!s.persisted.Stored? ==> s.markers == [])
  }

  lemma InitConsistent(slot: Slot)
    ensures Consistent(Init(slot))
  {
  }

  /** A state that is its own save holds one agreeing saved location per marker, and stores them. */
  lemma SavedStateAgrees(r: TrackerState, stamps: nat -> real)
    requires r == SaveRoute(r, stamps)
    ensures |r.savedLocations| == |r.markers|
    ensures forall i :: 0 <= i < |r.markers| ==> Agrees(r.markers[i], r.savedLocations[i])
    ensures r.persisted == Stored(r.savedLocations)
  {
  }

  /** A recorded position keeps the route consistent: its marker is titled, newest, and last. */
  lemma RecordingKeepsConsistency(s: TrackerState, c: Coord, env: Env)
    requires Consistent(s)
    ensures Consistent(DidUpdateLocation(s, c, env))
  {
    if Accepts(s, c, env.dist) {
      var r := DidUpdateLocation(s, c, env);
      if s.lastLocation.None? {
        AddingKeepsRoute(s.(lastLocation := Some(c)), c, Constants.StartingPoint, env);
      } else {
        AddingKeepsRoute(s, c, env.timeLabel, env);
      }
      assert RouteConsistent(r);
      assert r.lastLocation == LastCoordinate(r.markers);
    }
  }

  /** Appending a marker keeps the route part of the invariant. */
  lemma AddingKeepsRoute(t: TrackerState, c: Coord, title: string, env: Env)
    requires RouteConsistent(t)
    ensures RouteConsistent(AddMarkerAt(t, c, title, env))
  {
    var r := AddMarkerAt(t, c, title, env);
    var n := |t.markers|;
    SavedStateAgrees(r, env.stamps);
    assert forall i :: 0 <= i < n ==> r.markers[i] == t.markers[i];
    forall i | 0 <= i < |r.markers| ensures r.markers[i].title.Some? && r.markers[i].id < r.nextMarker {
      if i < n { assert r.markers[i] == t.markers[i]; }
    }
    forall i, j | 0 <= i < j < |r.markers| ensures r.markers[i].id < r.markers[j].id {
      assert r.markers[i] == t.markers[i];
      if j < n { assert r.markers[j] == t.markers[j]; }
    }
  }

  lemma CompletionKeepsConsistency(s: TrackerState, req: GeocodeRequest, address: string, stamps: nat -> real)
    requires Consistent(s)
    ensures Consistent(CompleteGeocode(s, req, address, stamps))
  {
    var r := CompleteGeocode(s, req, address, stamps);
    assert forall i :: 0 <= i < |s.markers| ==> r.markers[i].id == s.markers[i].id;
    assert forall i :: 0 <= i < |s.markers| ==> r.markers[i].coordinate == s.markers[i].coordinate;
  }

  lemma {:induction false} StepPreservesConsistency(s: TrackerState, e: Event, env: Env)
    requires Consistent(s)
    ensures Consistent(Step(s, e, env))
  {
    match e
    case LocationBatch(fixes) =>
      var forwarded := LM.DidUpdateLocations(s.service, fixes, env.now);
      if forwarded.Some? {
        RecordingKeepsConsistency(s, forwarded.value.coordinate, env);
      }
    case GeocodeDone(req, response) =>
      CompletionKeepsConsistency(s, req, LM.AddressText(response, LM.Short), env.stamps);
    case ResetRequested =>
    case ToggleRoute =>
    case TrackingSwitched(enabled) =>
    case AuthorizationChanged(status) =>
  }

  /** With both flags in step, a fix the service forwards always passes the view model's own gate. */
  lemma ForwardedFixPassesGate(s: TrackerState, fixes: seq<LM.Fix>, now: real)
    requires Consistent(s)
    requires LM.DidUpdateLocations(s.service, fixes, now).Some?
    ensures s.isTrackingEnabled
  {
  }

  /** While tracking is off, no batch of fixes changes anything. */
  lemma TrackingOffFreezesRoute(s: TrackerState, fixes: seq<LM.Fix>, env: Env)
    requires !s.isTrackingEnabled
    ensures Step(s, LocationBatch(fixes), env) == s
  {
  }

  /** Everything about a marker but its subtitle, which the geocoder may still rewrite. */
  function Pin(m: Marker): (nat, Coord, Option<string>) {
    (m.id, m.coordinate, m.title)
  }

  function Pins(ms: seq<Marker>): (r: seq<(nat, Coord, Option<string>)>)
    ensures |r| == |ms|
    ensures forall i :: 0 <= i < |ms| ==> r[i] == Pin(ms[i])
  {
    seq(|ms|, i requires 0 <= i < |ms| => Pin(ms[i]))
  }

  /**
   * The route only ever grows at its end, one marker at a time, or is
   * cleared as a whole: apart from a reset, every event keeps the markers
   * already recorded, in order, up to their subtitles.
   */
  lemma {:induction false} RouteIsAppendOnly(s: TrackerState, e: Event, env: Env)
    ensures e.ResetRequested? ==> Step(s, e, env).markers == []
    ensures !e.ResetRequested? ==>
      && |s.markers| <= |Step(s, e, env).markers| <= |s.markers| + 1
      && Pins(s.markers) == Pins(Step(s, e, env).markers)[..|s.markers|]
  {
    var r := Step(s, e, env);
    match e
    case LocationBatch(fixes) =>
      var forwarded := LM.DidUpdateLocations(s.service, fixes, env.now);
      if forwarded.Some? && Accepts(s, forwarded.value.coordinate, env.dist) {
        assert r.markers[..|s.markers|] == s.markers;
        assert forall i :: 0 <= i < |s.markers| ==> r.markers[i] == s.markers[i];
      }
    case GeocodeDone(req, response) =>
      assert forall i :: 0 <= i < |s.markers| ==> Pin(r.markers[i]) == Pin(s.markers[i]);
    case ResetRequested =>
    case ToggleRoute =>
    case TrackingSwitched(enabled) =>
    case AuthorizationChanged(status) =>
  }

  /**
   * A completion whose marker is no longer part of the route leaves the
   * markers alone and only re-saves the route; on an empty (reset) route it
   * adds nothing.
   */
  lemma StaleCompletionKeepsRoute(s: TrackerState, req: GeocodeRequest, address: string, stamps: nat -> real)
    requires forall i :: 0 <= i < |s.markers| ==> s.markers[i].id != req.marker
    ensures CompleteGeocode(s, req, address, stamps).markers == s.markers
    ensures CompleteGeocode(s, req, address, stamps).savedLocations == Snapshot(s.markers, stamps)
    ensures s.markers == [] ==> CompleteGeocode(s, req, address, stamps).savedLocations == []
  {
    var r := CompleteGeocode(s, req, address, stamps);
    assert r.markers == s.markers;
    assert r.savedLocations == Snapshot(s.markers, stamps);
  }

  /** All markers were created at or after identity `n`. */
  predicate CreatedSince(s: TrackerState, n: nat) {
    && n <= s.nextMarker
    && forall i :: 0 <= i < |s.markers| ==> s.markers[i].id >= n
  }

  lemma {:induction false} StepKeepsCreatedSince(s: TrackerState, e: Event, env: Env, n: nat)
    requires CreatedSince(s, n)
    ensures CreatedSince(Step(s, e, env), n)
  {
    var r := Step(s, e, env);
    match e
    case LocationBatch(fixes) =>
      var forwarded := LM.DidUpdateLocations(s.service, fixes, env.now);
      if forwarded.Some? && Accepts(s, forwarded.value.coordinate, env.dist) {
        assert r.markers == s.markers + [r.markers[|s.markers|]];
      }
    case GeocodeDone(req, response) =>
    case ResetRequested =>
    case ToggleRoute =>
    case TrackingSwitched(enabled) =>
    case AuthorizationChanged(status) =>
  }

  /** A sequence of events, each with the surroundings it was processed in. */
  function Run(s: TrackerState, events: seq<(Event, Env)>): TrackerState
    decreases |events|
  {
    if |events| == 0 then s
    else Run(Step(s, events[0].0, events[0].1), events[1..])
  }

  lemma {:induction false} RunKeepsCreatedSince(s: TrackerState, events: seq<(Event, Env)>, n: nat)
    requires CreatedSince(s, n)
    ensures CreatedSince(Run(s, events), n)
    decreases |events|
  {
    if |events| > 0 {
      StepKeepsCreatedSince(s, events[0].0, events[0].1, n);
      RunKeepsCreatedSince(Step(s, events[0].0, events[0].1), events[1..], n);
    }
  }

  /**
   * A completion that arrives after a reset, however much has been recorded
   * since, finds its marker gone: it changes no marker of the new route.
   */
  lemma LateCompletionAfterReset(
    s: TrackerState, req: GeocodeRequest, resetAt: nat -> real, events: seq<(Event, Env)>, address: string, stamps: nat -> real)
    requires req.marker < s.nextMarker
    ensures
      var t := Run(ResetRoute(s, resetAt), events);
      CompleteGeocode(t, req, address, stamps).markers == t.markers
  {
    RunKeepsCreatedSince(ResetRoute(s, resetAt), events, s.nextMarker);
  }

  /** An entry at a revisited coordinate is never patched while an earlier visit is in the list. */
  lemma RevisitPatchesEarliest(xs: seq<SavedLocation>, req: GeocodeRequest, address: string, i: nat, j: nat)
    requires i < j < |xs|
    requires xs[i].Coordinate() == req.coordinate && xs[j].Coordinate() == req.coordinate
    ensures PatchFirstMatch(xs, req, address)[j] == xs[j]
  {
  }

  /**
   * Storing a route and loading it back restores the saved locations
   * exactly and the markers up to their identities, and puts the last
   * position back on the last marker.
   */
  lemma ReloadRestoresRoute(s: TrackerState, stamps: nat -> real)
    requires Consistent(s)
    ensures
      var saved := SaveRoute(s, stamps);
      var r := Init(saved.persisted);
      && r.savedLocations == saved.savedLocations
      && |r.markers| == |s.markers|
      && (forall i :: 0 <= i < |s.markers| ==>
            r.markers[i] == s.markers[i].(id := i))
      && r.lastLocation == s.lastLocation
  {
    var saved := SaveRoute(s, stamps);
    var r := Init(saved.persisted);
    forall i | 0 <= i < |s.markers| ensures r.markers[i] == s.markers[i].(id := i) {
      SavedLocationRoundTrip(s.markers[i], stamps(i));
    }
  }

  /** After a reset the stored route is empty: reloading it gives an empty route with no statistics. */
  lemma ResetThenReload(s: TrackerState, stamps: nat -> real, dist: (Coord, Coord) -> real)
    ensures Init(ResetRoute(s, stamps).persisted).markers == []
    ensures Init(ResetRoute(s, stamps).persisted).savedLocations == []
    ensures RS.Compute(Init(ResetRoute(s, stamps).persisted).savedLocations, dist) == RS.Degenerate
  {
  }

  /** The clock does not run backwards over the first `n` readings. */
  predicate Ascending(stamps: nat -> real, n: nat) {
    forall i, j :: 0 <= i <= j < n ==> stamps(i) <= stamps(j)
  }

  /** With a clock that does not run backwards, a save lists the route in time order. */
  lemma SnapshotInTimeOrder(markers: seq<Marker>, stamps: nat -> real)
    requires Ascending(stamps, |markers|)
    ensures RS.SortedByTime(Snapshot(markers, stamps))
  {
    var saved := Snapshot(markers, stamps);
    forall i, j | 0 <= i < j < |saved| ensures saved[i].timestamp <= saved[j].timestamp {
      assert saved[i].timestamp == stamps(i) && saved[j].timestamp == stamps(j);
    }
  }

  /**
   * Every save restamps the whole route with the readings it takes while
   * rebuilding it, so statistics computed right after a save measure the
   * save itself: the duration is the time from the first rebuilt entry to
   * the last, the speed is the route's length over that time (zero when all
   * readings coincide), and the length is taken in recording order.
   */
  lemma SavedRouteSpansTheSave(s: TrackerState, stamps: nat -> real, dist: (Coord, Coord) -> real)
    requires |s.markers| >= 2
    requires Ascending(stamps, |s.markers|)
    ensures
      var saved := SaveRoute(s, stamps).savedLocations;
      var span := stamps(|s.markers| - 1) - stamps(0);
      && RS.Compute(saved, dist).totalDuration == span
      && RS.Compute(saved, dist).totalDistance == RS.PathLength(saved, dist)
      && (span > 0.0 ==> RS.Compute(saved, dist).averageSpeed == RS.PathLength(saved, dist) / span)
      && (span == 0.0 ==> RS.Compute(saved, dist).averageSpeed == 0.0)
      && (span > 0.0 && RS.PathLength(saved, dist) > 0.0 ==> RS.Compute(saved, dist).averageSpeed > 0.0)
  {
    var saved := SaveRoute(s, stamps).savedLocations;
    SnapshotInTimeOrder(s.markers, stamps);
    RS.StatisticsOfSortedRoute(saved, dist);
    var stats := RS.Compute(saved, dist);
    if stats.totalDuration > 0.0 && stats.totalDistance > 0.0 {
      assert stats.averageSpeed == stats.totalDistance / stats.totalDuration;
      PositiveQuotient(stats.totalDistance, stats.totalDuration);
    }
  }

  lemma PositiveQuotient(x: real, y: real)
    requires x > 0.0 && y > 0.0
    ensures x / y > 0.0
  {
  }
}

=== FILE: optional.dfy ===
/** Swift optionals (`T?`) as a value type. */
module Optional {

  datatype Option<+T> = None | Some(value: T) {

    /** The wrapped value, or `default` when absent (Swift's `??`). */
    function GetOr(default: T): (r: T)
      ensures Some? ==> r == value
      ensures None? ==> r == default
    {
      match this
      case Some(v) => v
      case None => default
    }
  }
}

=== FILE: route_statistics.dfy ===
/** Aggregate statistics of a recorded route: length, duration and average speed. */
module RouteStatistics {
  import opened Optional
  import opened SavedLocationModel

  /** The derived snapshot; distances in metres, times in seconds. */
  datatype Stats = Stats(
    totalDistance: real,
    totalDuration: real,
    averageSpeed: real,
    startTime: Option<real>,
    endTime: Option<real>)

  /** The result for a route too short to have a leg. */
  const Degenerate := Stats(0.0, 0.0, 0.0, None, None)

  /** The geodesic distance is never negative. */
  ghost predicate NonNegative(dist: (Coord, Coord) -> real) {
    forall a, b :: dist(a, b) >= 0.0
  }

  predicate SortedByTime(xs: seq<SavedLocation>) {
    forall i, j :: 0 <= i < j < |xs| ==> xs[i].timestamp <= xs[j].timestamp
  }

  /** An element no later than the head of a sorted list can go in front of it. */
  lemma ConsSorted(x: SavedLocation, ys: seq<SavedLocation>)
    requires SortedByTime(ys)
    requires |ys| == 0 || x.timestamp <= ys[0].timestamp
    ensures SortedByTime([x] + ys)
  {
    var r := [x] + ys;
    forall i, j | 0 <= i < j < |r| ensures r[i].timestamp <= r[j].timestamp {
      assert r[j] == ys[j - 1];
      if i > 0 { assert r[i] == ys[i - 1]; }
    }
  }

  /** Places `x` in front of the first element that is not earlier than it. */
  function Insert(x: SavedLocation, ys: seq<SavedLocation>): (r: seq<SavedLocation>)
    requires SortedByTime(ys)
    ensures SortedByTime(r)
    ensures multiset(r) == multiset(ys) + multiset{x}
    ensures |r| == |ys| + 1
    ensures r[0] == x || (|ys| > 0 && r[0] == ys[0])
  {
    if |ys| == 0 then [x]
    else if x.timestamp <= ys[0].timestamp then
      ConsSorted(x, ys);
      [x] + ys
    else
      var tail := ys[1..];
      assert SortedByTime(tail) by {
        forall i, j | 0 <= i < j < |tail| ensures tail[i].timestamp <= tail[j].timestamp {
          assert tail[i] == ys[i + 1] && tail[j] == ys[j + 1];
        }
      }
      var rest := Insert(x, tail);
      assert ys[0].timestamp <= rest[0].timestamp by {
        if rest[0] != x { assert rest[0] == ys[1]; }
      }
      ConsSorted(ys[0], rest);
      assert ys == [ys[0]] + tail;
      [ys[0]] + rest
  }

  /**
   * A stable sort by ascending timestamp, standing for the sorted copy the
   * statistics are computed from.
   */
  function SortByTime(xs: seq<SavedLocation>): (r: seq<SavedLocation>)
    ensures SortedByTime(r)
    ensures multiset(r) == multiset(xs)
    ensures |r| == |xs|
  {
    if |xs| == 0 then []
    else
      assert xs == [xs[0]] + xs[1..];
      Insert(xs[0], SortByTime(xs[1..]))
  }

  /** The sum of the leg lengths along `xs`, legs added from the start of the route. */
  function PathLength(xs: seq<SavedLocation>, dist: (Coord, Coord) -> real): real
    decreases |xs|
  {
    if |xs| < 2 then 0.0
    else PathLength(xs[..|xs| - 1], dist) + dist(xs[|xs| - 2].Coordinate(), xs[|xs| - 1].Coordinate())
  }

  predicate IsEarliest(t: real, xs: seq<SavedLocation>) {
    && (forall i :: 0 <= i < |xs| ==> t <= xs[i].timestamp)
    && (exists i :: 0 <= i < |xs| && xs[i].timestamp == t)
  }

  predicate IsLatest(t: real, xs: seq<SavedLocation>) {
    && (forall i :: 0 <= i < |xs| ==> xs[i].timestamp <= t)
    && (exists i :: 0 <= i < |xs| && xs[i].timestamp == t)
  }

  /** The first and last element of a sorted permutation hold the extreme timestamps. */
  lemma SortedEnds(s: seq<SavedLocation>, xs: seq<SavedLocation>)
    requires SortedByTime(s)
    requires multiset(s) == multiset(xs)
    requires |xs| > 0
    ensures |s| == |xs|
    ensures IsEarliest(s[0].timestamp, xs)
    ensures IsLatest(s[|s| - 1].timestamp, xs)
  {
    assert |s| == |multiset(s)| == |xs|;
    forall i | 0 <= i < |xs|
      ensures s[0].timestamp <= xs[i].timestamp <= s[|s| - 1].timestamp
    {
      assert xs[i] in multiset(s);
      var k :| 0 <= k < |s| && s[k] == xs[i];
    }
    assert s[0] in multiset(xs);
    assert s[|s| - 1] in multiset(xs);
  }

  /**
   * `RouteStatistics(locations:)`: fewer than two points give the degenerate
   * result; otherwise the route runs from the earliest to the latest
   * timestamp, its length is the sum of the legs in time order, and the
   * average speed is zero rather than a division by a zero duration.
   */
  function Compute(locations: seq<SavedLocation>, dist: (Coord, Coord) -> real): (r: Stats)
    ensures |locations| < 2 ==> r == Degenerate
    ensures |locations| >= 2 ==>
      && r.startTime.Some? && r.endTime.Some?
      && IsEarliest(r.startTime.value, locations)
      && IsLatest(r.endTime.value, locations)
      && r.totalDuration == r.endTime.value - r.startTime.value
      && r.totalDuration >= 0.0
      && r.totalDistance == PathLength(SortByTime(locations), dist)
    ensures r.totalDuration > 0.0 ==> r.averageSpeed == r.totalDistance / r.totalDuration
    ensures r.totalDuration <= 0.0 ==> r.averageSpeed == 0.0
  {
    if |locations| < 2 then Degenerate
    else
      var sorted := SortByTime(locations);
      SortedEnds(sorted, locations);
      var start := sorted[0].timestamp;
      var end := sorted[|sorted| - 1].timestamp;
      var duration := end - start;
      var distance := PathLength(sorted, dist);
      Stats(distance, duration, if duration > 0.0 then distance / duration else 0.0, Some(start), Some(end))
  }

  /** The accumulating loop of the initialiser: it adds up exactly the legs of the sorted route. */
  method SumLegs(sorted: seq<SavedLocation>, dist: (Coord, Coord) -> real) returns (distance: real)
    ensures distance == PathLength(sorted, dist)
  {
    distance := 0.0;
    if |sorted| < 2 {
      return;
    }
    var i := 0;
    while i < |sorted| - 1
      invariant 0 <= i <= |sorted| - 1
      invariant distance == PathLength(sorted[..i + 1], dist)
    {
      assert sorted[..i + 2][..i + 1] == sorted[..i + 1];
      distance := distance + dist(sorted[i].Coordinate(), sorted[i + 1].Coordinate());
      i := i + 1;
    }
    assert sorted[..|sorted|] == sorted;
  }

  /** The initialiser as written: sort a copy, read its ends, run the loop, guard the division. */
  method ComputeStatistics(locations: seq<SavedLocation>, dist: (Coord, Coord) -> real) returns (r: Stats)
    ensures r == Compute(locations, dist)
  {
    if |locations| < 2 {
      return Degenerate;
    }
    var sorted := SortByTime(locations);
    var start := sorted[0].timestamp;
    var end := sorted[|sorted| - 1].timestamp;
    var duration := end - start;
    var distance := SumLegs(sorted, dist);
    var speed := if duration > 0.0 then distance / duration else 0.0;
    r := Stats(distance, duration, speed, Some(start), Some(end));
  }

  /** With non-negative leg lengths a route is never negatively long. */
  lemma {:induction false} PathLengthNonNegative(xs: seq<SavedLocation>, dist: (Coord, Coord) -> real)
    requires NonNegative(dist)
    ensures PathLength(xs, dist) >= 0.0
    decreases |xs|
  {
    if |xs| >= 2 {
      PathLengthNonNegative(xs[..|xs| - 1], dist);
    }
  }

  /** Distance and speed of any route are non-negative. */
  lemma StatisticsNonNegative(locations: seq<SavedLocation>, dist: (Coord, Coord) -> real)
    requires NonNegative(dist)
    ensures Compute(locations, dist).totalDistance >= 0.0
    ensures Compute(locations, dist).averageSpeed >= 0.0
  {
    PathLengthNonNegative(SortByTime(locations), dist);
  }

  /** Locations that share a timestamp are the same location. */
  predicate TimeDetermines(xs: seq<SavedLocation>) {
    forall i, j :: 0 <= i < |xs| && 0 <= j < |xs| && xs[i].timestamp == xs[j].timestamp ==> xs[i] == xs[j]
  }

  lemma TailMultiset(a: seq<SavedLocation>)
    requires |a| > 0
    ensures multiset(a[1..]) == multiset(a) - multiset{a[0]}
  {
    assert a == [a[0]] + a[1..];
  }

  lemma TailKeepsOrder(a: seq<SavedLocation>)
    requires |a| > 0
    ensures SortedByTime(a) ==> SortedByTime(a[1..])
    ensures TimeDetermines(a) ==> TimeDetermines(a[1..])
  {
  }

  /** Two time-sorted arrangements of one multiset start with locations of the same timestamp. */
  lemma SortedHeads(a: seq<SavedLocation>, b: seq<SavedLocation>)
    requires SortedByTime(a) && SortedByTime(b)
    requires multiset(a) == multiset(b)
    requires |a| > 0
    ensures |b| > 0 && exists i :: 0 <= i < |a| && a[i] == b[0] && a[0].timestamp == a[i].timestamp
  {
    assert a[0] in multiset(b);
    var j :| 0 <= j < |b| && b[j] == a[0];
    assert b[0] in multiset(a);
    var i :| 0 <= i < |a| && a[i] == b[0];
  }

  /** Two time-sorted arrangements of the same multiset are equal when timestamps tell locations apart. */
  lemma {:induction false} SortedUnique(a: seq<SavedLocation>, b: seq<SavedLocation>)
    requires SortedByTime(a) && SortedByTime(b)
    requires multiset(a) == multiset(b)
    requires TimeDetermines(a)
    ensures a == b
    decreases |a|
  {
    assert |a| == |multiset(a)| == |b|;
    if |a| > 0 {
      SortedHeads(a, b);
      assert a[0] == b[0];
      TailMultiset(a);
      TailMultiset(b);
      TailKeepsOrder(a);
      TailKeepsOrder(b);
      SortedUnique(a[1..], b[1..]);
      assert a == [a[0]] + a[1..];
      assert b == [b[0]] + b[1..];
    }
  }

  /**
   * The statistics do not depend on the order the locations are given in,
   * as long as no two different locations share a timestamp.
   */
  lemma StatisticsIgnoreOrder(a: seq<SavedLocation>, b: seq<SavedLocation>, dist: (Coord, Coord) -> real)
    requires multiset(a) == multiset(b)
    requires TimeDetermines(a)
    ensures Compute(a, dist) == Compute(b, dist)
  {
    var sa := SortByTime(a);
    var sb := SortByTime(b);
    assert |a| == |multiset(a)| == |b|;
    assert TimeDetermines(sa) by {
      forall i, j | 0 <= i < |sa| && 0 <= j < |sa| && sa[i].timestamp == sa[j].timestamp
        ensures sa[i] == sa[j]
      {
        assert sa[i] in multiset(a) && sa[j] in multiset(a);
        var i' :| 0 <= i' < |a| && a[i'] == sa[i];
        var j' :| 0 <= j' < |a| && a[j'] == sa[j];
      }
    }
    SortedUnique(sa, sb);
  }

  predicate SameTime(xs: seq<SavedLocation>) {
    forall i :: 0 <= i < |xs| ==> xs[i].timestamp == xs[0].timestamp
  }

  /** A route already in time order is left exactly as it is by the sort. */
  lemma {:induction false} SortKeepsSorted(xs: seq<SavedLocation>)
    requires SortedByTime(xs)
    ensures SortByTime(xs) == xs
    decreases |xs|
  {
    if |xs| > 0 {
      var tail := xs[1..];
      assert SortedByTime(tail) by {
        forall i, j | 0 <= i < j < |tail| ensures tail[i].timestamp <= tail[j].timestamp {
          assert tail[i] == xs[i + 1] && tail[j] == xs[j + 1];
        }
      }
      SortKeepsSorted(tail);
      assert SortByTime(xs) == Insert(xs[0], tail);
      if |tail| == 0 {
        assert xs == [xs[0]];
      } else {
        assert xs[0].timestamp <= tail[0].timestamp by { assert tail[0] == xs[1]; }
        assert Insert(xs[0], tail) == [xs[0]] + tail;
        assert xs == [xs[0]] + tail;
      }
    }
  }

  /**
   * A route given in time order runs from its first entry's time to its
   * last one's, and its length is measured in the given order.
   */
  lemma StatisticsOfSortedRoute(xs: seq<SavedLocation>, dist: (Coord, Coord) -> real)
    requires |xs| >= 2
    requires SortedByTime(xs)
    ensures Compute(xs, dist).startTime == Some(xs[0].timestamp)
    ensures Compute(xs, dist).endTime == Some(xs[|xs| - 1].timestamp)
    ensures Compute(xs, dist).totalDuration == xs[|xs| - 1].timestamp - xs[0].timestamp
    ensures Compute(xs, dist).totalDistance == PathLength(xs, dist)
  {
    SortKeepsSorted(xs);
    var r := Compute(xs, dist);
    var i :| 0 <= i < |xs| && xs[i].timestamp == r.startTime.value;
    assert xs[0].timestamp <= xs[i].timestamp;
    var j :| 0 <= j < |xs| && xs[j].timestamp == r.endTime.value;
    assert xs[j].timestamp <= xs[|xs| - 1].timestamp;
  }

  /** Locations that all share one timestamp keep their input order through the sort. */
  lemma {:induction false} SortKeepsEqualTimes(xs: seq<SavedLocation>)
    requires SameTime(xs)
    ensures SortByTime(xs) == xs
    decreases |xs|
  {
    if |xs| > 0 {
      var tail := xs[1..];
      assert SameTime(tail) by {
        forall i | 0 <= i < |tail| ensures tail[i].timestamp == tail[0].timestamp {
          assert tail[i] == xs[i + 1];
        }
      }
      SortKeepsEqualTimes(tail);
      assert xs == [xs[0]] + tail;
    }
  }

  /**
   * When every location carries the same timestamp the route has no
   * duration and no speed, and its length is measured in the given order.
   */
  lemma StatisticsOfSameTime(xs: seq<SavedLocation>, dist: (Coord, Coord) -> real)
    requires |xs| >= 2
    requires SameTime(xs)
    ensures Compute(xs, dist).totalDuration == 0.0
    ensures Compute(xs, dist).averageSpeed == 0.0
    ensures Compute(xs, dist).startTime == Compute(xs, dist).endTime == Some(xs[0].timestamp)
    ensures Compute(xs, dist).totalDistance == PathLength(xs, dist)
  {
    SortKeepsEqualTimes(xs);
  }

  lemma PathOfThree(a: SavedLocation, b: SavedLocation, c: SavedLocation, dist: (Coord, Coord) -> real)
    ensures PathLength([a, b, c], dist) == dist(a.Coordinate(), b.Coordinate()) + dist(b.Coordinate(), c.Coordinate())
  {
    var xs := [a, b, c];
    assert xs[..2] == [a, b] && xs[1] == b && xs[2] == c;
    assert [a, b][..1] == [a];
    assert PathLength([a], dist) == 0.0;
    assert PathLength([a, b], dist) == dist(a.Coordinate(), b.Coordinate());
  }

  /**
   * Three waypoints recorded at 0 s, 60 s and 180 s, handed over in any
   * order: the route lasts 180 s and is as long as its two legs in time
   * order.
   */
  lemma ThreeWaypointRoute(
    a: SavedLocation, b: SavedLocation, c: SavedLocation, xs: seq<SavedLocation>, dist: (Coord, Coord) -> real)
    requires a.timestamp == 0.0 && b.timestamp == 60.0 && c.timestamp == 180.0
    requires multiset(xs) == multiset([a, b, c])
    ensures Compute(xs, dist).startTime == Some(0.0)
    ensures Compute(xs, dist).endTime == Some(180.0)
    ensures Compute(xs, dist).totalDuration == 180.0
    ensures Compute(xs, dist).totalDistance == dist(a.Coordinate(), b.Coordinate()) + dist(b.Coordinate(), c.Coordinate())
    ensures Compute(xs, dist).averageSpeed == Compute(xs, dist).totalDistance / 180.0
  {
    RouteOfThree(a, b, c);
    StatisticsIgnoreOrder([a, b, c], xs, dist);
    StatisticsOfThree(a, b, c, dist);
  }

  /** The same three waypoints, already in time order. */
  lemma StatisticsOfThree(a: SavedLocation, b: SavedLocation, c: SavedLocation, dist: (Coord, Coord) -> real)
    requires a.timestamp == 0.0 && b.timestamp == 60.0 && c.timestamp == 180.0
    ensures Compute([a, b, c], dist).startTime == Some(0.0)
    ensures Compute([a, b, c], dist).endTime == Some(180.0)
    ensures Compute([a, b, c], dist).totalDuration == 180.0
    ensures Compute([a, b, c], dist).totalDistance == dist(a.Coordinate(), b.Coordinate()) + dist(b.Coordinate(), c.Coordinate())
    ensures Compute([a, b, c], dist).averageSpeed == Compute([a, b, c], dist).totalDistance / 180.0
  {
    RouteOfThree(a, b, c);
    StatisticsOfSortedRoute([a, b, c], dist);
    PathOfThree(a, b, c, dist);
  }

  /** Three strictly increasing timestamps make a time-ordered route with distinct times. */
  lemma RouteOfThree(a: SavedLocation, b: SavedLocation, c: SavedLocation)
    requires a.timestamp < b.timestamp < c.timestamp
    ensures SortedByTime([a, b, c]) && TimeDetermines([a, b, c])
  {
  }
}

=== FILE: route_stats_format.dfy ===
/** The numeric side of the statistics sheet: how duration, distance and speed are shown. */
module RouteStatsFormat {

  /** `Int(x)`: conversion to an integer, truncating toward zero. */
  function Trunc(x: real): (n: int)
    ensures x >= 0.0 ==> n as real <= x < n as real + 1.0
    ensures x < 0.0 ==> n as real - 1.0 < x <= n as real
  {
    if x >= 0.0 then x.Floor else -((-x).Floor)
  }

  /** `x.truncatingRemainder(dividingBy: d)`: the remainder that keeps the sign of `x`. */
  function TruncatingRemainder(x: real, d: real): real
    requires d != 0.0
  {
    x - d * Trunc(x / d) as real
  }

  /** What `formatDuration` shows: hours and minutes, or minutes alone. */
  datatype DurationText = HoursAndMinutes(hours: int, minutes: int) | MinutesOnly(minutes: int)
  {
    /** The hours the text stands for; none are shown in `MinutesOnly`. */
    function ShownHours(): int {
      if HoursAndMinutes? then hours else 0
    }
  }

  /**
   * `formatDuration`: whole hours, then whole minutes of the remaining part
   * of the hour. The hours are shown exactly when the duration reaches one
   * hour; for a non-negative duration the minutes are those of a clock and
   * the text never overstates the duration nor understates it by a minute
   * or more.
   */
  function FormatDuration(seconds: real): (r: DurationText)
    ensures r.HoursAndMinutes? <==> seconds >= 3600.0
    ensures seconds >= 0.0 ==> 0 <= r.minutes < 60
    ensures seconds >= 0.0 ==>
      var shown := (r.ShownHours() * 3600 + r.minutes * 60) as real;
      shown <= seconds < shown + 60.0
  {
    var hours := Trunc(seconds / 3600.0);
    var minutes := Trunc(TruncatingRemainder(seconds, 3600.0) / 60.0);
    if hours > 0 then HoursAndMinutes(hours, minutes) else MinutesOnly(minutes)
  }

  /** For a non-negative duration the truncations are floors of the usual quotient and remainder. */
  lemma DurationIsFloorDivision(seconds: real)
    requires seconds >= 0.0
    ensures FormatDuration(seconds).ShownHours() == (seconds / 3600.0).Floor
    ensures FormatDuration(seconds).minutes
         == ((seconds - 3600.0 * (seconds / 3600.0).Floor as real) / 60.0).Floor
  {
  }

  /** What `formatDistance` shows: kilometres from one kilometre on, metres below. */
  datatype DistanceText = Kilometres(km: real) | Metres(m: real)

  function FormatDistance(meters: real): (r: DistanceText)
    ensures r.Kilometres? <==> meters >= 1000.0
    ensures r.Kilometres? ==> r.km * 1000.0 == meters
    ensures r.Metres? ==> r.m == meters
  {
    if meters >= 1000.0 then Kilometres(meters / 1000.0) else Metres(meters)
  }

  /** `formatSpeed`: metres per second shown as kilometres per hour. */
  function FormatSpeed(metersPerSecond: real): (kmPerHour: real)
    ensures kmPerHour / 3.6 == metersPerSecond
    ensures kmPerHour >= 0.0 <==> metersPerSecond >= 0.0
  {
    metersPerSecond * 3.6
  }
}

=== FILE: saved_location.dfy ===
/** The persisted waypoint record and its conversions to and from map annotations. */
module SavedLocationModel {
  import opened Optional
  import Constants

  /** A latitude/longitude pair in degrees. */
  datatype Coord = Coord(latitude: real, longitude: real)

  /**
   * A map annotation. Annotations are reference objects in the application:
   * `id` stands for the object's identity, which an asynchronous completion
   * holds on to while the route changes around it.
   */
  datatype Marker = Marker(id: nat, coordinate: Coord, title: Option<string>, subtitle: Option<string>)

  /** A recorded waypoint; `timestamp` is in seconds on the application's clock. */
  datatype SavedLocation = SavedLocation(
    latitude: real,
    longitude: real,
    title: string,
    subtitle: Option<string>,
    timestamp: real)
  {
    function Coordinate(): Coord {
      Coord(latitude, longitude)
    }
  }

  /**
   * A saved location carries the same visible content as a marker: the same
   * coordinate, the marker's title (or the default title when it has none)
   * and the same subtitle.
   */
  predicate Agrees(m: Marker, s: SavedLocation) {
    && s.latitude == m.coordinate.latitude
    && s.longitude == m.coordinate.longitude
    && (m.title.Some? ==> s.title == m.title.value)
    && (m.title.None? ==> s.title == Constants.DefaultTitle)
    && s.subtitle == m.subtitle
  }

  /** `SavedLocation(marker:timestamp:)`; the source's default timestamp is the current time. */
  function FromMarker(m: Marker, timestamp: real): (s: SavedLocation)
    ensures Agrees(m, s)
    ensures s.timestamp == timestamp
  {
    SavedLocation(m.coordinate.latitude, m.coordinate.longitude, m.title.GetOr(Constants.DefaultTitle), m.subtitle, timestamp)
  }

  /** `SavedLocation(location:title:subtitle:timestamp:)`. */
  function FromLocation(c: Coord, title: string, subtitle: Option<string>, timestamp: real): (s: SavedLocation)
    ensures s.Coordinate() == c
    ensures s.title == title && s.subtitle == subtitle && s.timestamp == timestamp
  {
    SavedLocation(c.latitude, c.longitude, title, subtitle, timestamp)
  }

  /** `SavedLocation(location:title:)` with both defaults taken: no subtitle, stamped `now`. */
  function NewSavedLocation(c: Coord, title: string, now: real): (s: SavedLocation)
    ensures s.Coordinate() == c && s.title == title
    ensures s.subtitle.None?
    ensures s.timestamp == now
  {
    FromLocation(c, title, None, now)
  }

  /** `toMarker()`: a fresh annotation, whose identity is `id`. */
  function ToMarker(s: SavedLocation, id: nat): (m: Marker)
    ensures m.id == id
    ensures m.coordinate == s.Coordinate()
    ensures m.title == Some(s.title) && m.subtitle == s.subtitle
  {
    Marker(id, Coord(s.latitude, s.longitude), Some(s.title), s.subtitle)
  }

  /** `toLocation()`: only the coordinate survives. */
  function ToLocation(s: SavedLocation): (c: Coord)
    ensures c.latitude == s.latitude && c.longitude == s.longitude
  {
    s.Coordinate()
  }

  /** Converting to a marker and back, keeping the timestamp, gives the same record. */
  lemma MarkerRoundTrip(s: SavedLocation, id: nat)
    ensures FromMarker(ToMarker(s, id), s.timestamp) == s
  {
  }

  /** A marker that has a title survives the opposite round trip, up to its identity. */
  lemma SavedLocationRoundTrip(m: Marker, timestamp: real)
    requires m.title.Some?
    ensures ToMarker(FromMarker(m, timestamp), m.id) == m
  {
  }

  /** Agreement with a marker fixes everything but the timestamp. */
  lemma AgreesDeterminesContent(m: Marker, s: SavedLocation)
    ensures Agrees(m, s) <==> s == FromMarker(m, s.timestamp)
  {
  }
}

=== FILE: text.dfy ===
/** Joining strings with a separator, and splitting them apart again. */
module Text {

  /** `parts.joined(separator: sep)`; the empty list joins to the empty string. */
  function Join(parts: seq<string>, sep: string): string
  {
    if |parts| == 0 then ""
    else if |parts| == 1 then parts[0]
    else parts[0] + sep + Join(parts[1..], sep)
  }

  /** Cuts `s` at every occurrence of `c`, keeping empty pieces. */
  function Split(s: string, c: char): (r: seq<string>)
    ensures |r| >= 1
    decreases |s|
  {
    if |s| == 0 then [""]
    else
      var rest := Split(s[1..], c);
      if s[0] == c then [""] + rest else [[s[0]] + rest[0]] + rest[1..]
  }

  /** Every piece but the first gets `lead` in front of it. */
  function Prefixed(parts: seq<string>, lead: string): (r: seq<string>)
    ensures |r| == |parts|
    ensures |parts| > 0 ==> r[0] == parts[0]
    ensures forall i :: 0 < i < |parts| ==> r[i] == lead + parts[i]
  {
    seq(|parts|, i requires 0 <= i < |parts| => if i == 0 then parts[0] else lead + parts[i])
  }

  predicate Free(parts: seq<string>, c: char) {
    forall i :: 0 <= i < |parts| ==> c !in parts[i]
  }

  /** Two lists of pieces free of `c` make a list free of `c`. */
  lemma FreeConcat(a: seq<string>, b: seq<string>, c: char)
    requires Free(a, c) && Free(b, c)
    ensures Free(a + b, c)
  {
    forall i | 0 <= i < |a + b| ensures c !in (a + b)[i] {
      if i < |a| { assert (a + b)[i] == a[i]; } else { assert (a + b)[i] == b[i - |a|]; }
    }
  }

  /** A piece free of the cut character comes back whole. */
  lemma {:induction false} SplitFree(w: string, c: char)
    requires c !in w
    ensures Split(w, c) == [w]
    decreases |w|
  {
    if |w| > 0 {
      SplitFree(w[1..], c);
      assert [w[0]] + w[1..] == w;
    }
  }

  /** Splitting stops at the first cut character. */
  lemma {:induction false} SplitAtFirst(w: string, c: char, rest: string)
    requires c !in w
    ensures Split(w + [c] + rest, c) == [w] + Split(rest, c)
    decreases |w|
  {
    var s := w + [c] + rest;
    if |w| == 0 {
      assert s[0] == c && s[1..] == rest;
    } else {
      assert s[0] == w[0];
      assert s[1..] == w[1..] + [c] + rest;
      SplitAtFirst(w[1..], c, rest);
      assert [w[0]] + w[1..] == w;
    }
  }

  /** Splitting on the separator undoes joining with it, as long as no piece contains it. */
  lemma {:induction false} SplitJoin(parts: seq<string>, c: char)
    requires |parts| > 0
    requires Free(parts, c)
    ensures Split(Join(parts, [c]), c) == parts
    decreases |parts|
  {
    if |parts| == 1 {
      SplitFree(parts[0], c);
    } else {
      assert Free(parts[1..], c) by {
        forall i | 0 <= i < |parts[1..]| ensures c !in parts[1..][i] {
          assert parts[1..][i] == parts[i + 1];
        }
      }
      SplitJoin(parts[1..], c);
      SplitAtFirst(parts[0], c, Join(parts[1..], [c]));
      assert [parts[0]] + parts[1..] == parts;
    }
  }

  /** A separator that starts with `c` moves its tail into the pieces that follow it. */
  lemma {:induction false} JoinShift(parts: seq<string>, c: char, lead: string)
    ensures Join(parts, [c] + lead) == Join(Prefixed(parts, lead), [c])
    decreases |parts|
  {
    if |parts| >= 2 {
      var tail := parts[1..];
      JoinShift(tail, c, lead);
      var p := Prefixed(parts, lead);
      var q := Prefixed(tail, lead);
      assert p[1..] == [lead + tail[0]] + q[1..];
      if |tail| == 1 {
        assert Join(p[1..], [c]) == lead + tail[0];
      } else {
        assert Join(p[1..], [c]) == lead + tail[0] + [c] + Join(q[1..], [c]);
        assert Join(q, [c]) == tail[0] + [c] + Join(q[1..], [c]);
      }
    }
  }
}
